=== FILE: README.md ===
# IoT backend: chart-type selector and indoor/outdoor CO2 delta

The backend (`iot-backend/app.py`) serves sensor data read from ThingSpeak
channels. It has two endpoints:

- `/api/data/<chart_type>` maps a chart type (`co2`, `temperature`,
  `humidity`, `pressure`) to a feed field. It fetches that field and returns
  the parallel lists of timestamps and numeric values. Any other chart type
  gets status 400.
- `/api/delta-co2` fetches the indoor and outdoor CO2 feeds (field 4) and
  normalises both. It then:
  1. trims both feeds to their common time window, from the later first
     reading to the earlier last reading;
  2. resamples each feed to an hourly grid of bucket means;
  3. fills empty buckets by linear interpolation;
  4. inner-joins the two grids on the hour;
  5. returns four parallel lists: hours, indoor values, outdoor values and
     `indoor − outdoor`.

The Dafny project models both endpoints as pure functions over sequences,
with one module per stage:

| file | module | stage |
|---|---|---|
| `wrappers.dfy` | `Wrappers` | `Option` |
| `filters.dfy` | `Filters` | order-preserving selection, as a boolean-mask row filter does |
| `numbers.dfy` | `Numbers` | the decimal text that `pd.to_numeric(errors='coerce')` accepts |
| `feed.dfy` | `Feed` | the selector, the single-series endpoint and feed normalisation |
| `alignment.dfy` | `Alignment` | common window and trimming |
| `resampler.dfy` | `Resampler` | hourly buckets and their means (`resample('1h').mean()`) |
| `gapfiller.dfy` | `GapFiller` | linear interpolation of empty buckets (`interpolate()`) |
| `merge.dfy` | `Merge` | the inner join on the hour, the delta column and the four output lists |
| `delta.dfy` | `DeltaEndpoint` | the whole delta pipeline |
| `scenario.dfy` | `DeltaScenario` | a worked example, from raw rows to the report |

Representation:

- Instants are integer seconds since the epoch. The bucket of `t` is
  `(t / 3600) * 3600`. Dafny's division floors for a positive divisor, as
  pandas does.
- Values are exact reals.
- A value that does not parse is `None`.
- The HTTP fetch is a parameter: a function from field index to raw rows, or
  the two raw feeds themselves.

The `Merge.Join` join is general: each indoor hour is paired with every
outdoor point of the same hour, in indoor order. The lemmas then show that
on the strictly ascending grids the resampler produces, each common hour
appears exactly once.

Facts about the delta pipeline that the model keeps:

- The resample rule is the fixed string `'1h'` (`iot-backend/app.py:67-68`),
  so the grid interval is always one hour.
- The merge on `created_at` applies no time shift to either series
  (`iot-backend/app.py:71`).
- The response holds only the four lists (`iot-backend/app.py:75-80`). It
  records no interpolation flags and no gap intervals.
- An empty common window (one feed ends before the other starts) raises no
  error. Trimming yields empty series and the endpoint returns four empty
  lists (`Alignment.TrimEmptyWindow`, `Resampler.Resample`).
- Leading and trailing empty buckets cannot occur, so no extrapolation is
  needed (`Resampler.ResampleEndsObserved`).
- A feed's readings after the earlier of the two last instants are trimmed
  away before resampling. Those readings never enter any reported value, and
  no hour after the hour of the window end is reported
  (`DeltaEndpoint.DeltaHours`). A trimmed reading can still share its hour
  with the window end, and that hour can still be reported, with the mean of
  the readings kept. The scenario shows the trimming: the indoor reading at
  14400 s is dropped (`DeltaScenario.ScenarioTrim`), and the report ends at
  hour 7200.

## Model

| member | source | states |
|---|---|---|
| Feed.FieldFor | iot-backend/app.py:32-41 | `co2`→4, `temperature`→1, `humidity`→6, `pressure`→7; a field exists exactly for these four names |
| Feed.FieldForInjective | iot-backend/app.py:32-39 | two chart types that select the same field are the same chart type |
| Feed.GetData | iot-backend/app.py:30-50 | the endpoint answers with an error exactly for a chart type outside the four, and that error is status 400 with "Invalid chart type"; otherwise it returns two lists of equal length, no longer than the fetched feed |
| Feed.GetDataContract | iot-backend/app.py:30-50 | an unknown chart type yields status 400 "Invalid chart type" whatever the feed holds, so no fetch matters; a known one yields the timestamps and values of the normalised feed of its field, as parallel lists |
| Feed.Normalize | iot-backend/app.py:25-26 | normalisation never adds rows |
| Feed.NormalizeSelects | iot-backend/app.py:23-26 | the normalised feed holds exactly the rows whose field parses, each once, in feed order, with the row's instant and parsed value |
| Feed.NormalizeDropsUnparsable | iot-backend/app.py:25-26 | a row with a null or non-numeric field is dropped and the rest of the feed is normalised as if it were absent |
| Numbers.ParseNumber | iot-backend/app.py:25 | text that coerces to a number is non-empty and uses only digits, signs, `.`, `e` and `E`; any other text coerces to the missing value |
| Numbers.ParseShowNat | iot-backend/app.py:25 | the decimal text of a natural number coerces to that number |
| Numbers.ParseShowNegative | iot-backend/app.py:25 | a minus sign before the decimal text of a natural number coerces to its negation |
| Numbers.ParseDecimal | iot-backend/app.py:25 | `whole.frac` with digit strings coerces to `whole + frac / 10^len(frac)` |
| Numbers.ParseSignedDecimal | iot-backend/app.py:25 | `-whole.frac` coerces to `−(whole + frac / 10^len(frac))` and `+whole.frac` to `whole + frac / 10^len(frac)` |
| Numbers.ParseDecimalExponent | iot-backend/app.py:25 | `whole.frac`, an `e` or `E`, then exponent digits of value `x` coerces to the decimal value times `10^x`; with a minus sign before the digits, to the decimal value divided by `10^x` |
| Numbers.ParseShowExponent | iot-backend/app.py:25 | the decimal text of `m`, an `e` or `E`, then the decimal text of `x` coerces to `m * 10^x` |
| Numbers.ParseShowNegativeExponent | iot-backend/app.py:25 | the decimal text of `m`, an `e` or `E`, a minus sign, then the decimal text of `x` coerces to `m / 10^x` |
| Alignment.Earliest | iot-backend/app.py:59 | the earliest instant of a non-empty series is one of its instants and bounds all of them from below |
| Alignment.Latest | iot-backend/app.py:60 | the latest instant of a non-empty series is one of its instants and bounds all of them from above |
| Alignment.CommonWindow | iot-backend/app.py:59-60 | start is the later of the two first instants, end the earlier of the two last instants |
| Alignment.Trim | iot-backend/app.py:63-64 | every trimmed observation lies within the window |
| Alignment.TrimSelects | iot-backend/app.py:63-64 | trimming keeps exactly the observations with `start <= instant <= end`, each once, in order, unchanged |
| Alignment.TrimEmptyWindow | iot-backend/app.py:59-64 | when the window is empty, both trimmed series are empty |
| Resampler.HourOf | iot-backend/app.py:67-68 | the bucket of an instant is a whole hour `h` with `h <= t < h + 3600` |
| Resampler.HourOfUnique | iot-backend/app.py:67-68 | that whole hour is the only one whose bucket holds the instant |
| Resampler.HourOfMonotone | iot-backend/app.py:67-68 | a later instant never falls in an earlier bucket |
| Resampler.MeanIn | iot-backend/app.py:67-68 | a bucket has a mean exactly when some observation falls in it, and the mean times the count is the sum of those observations |
| Resampler.MeanInBounds | iot-backend/app.py:67-68 | a bucket mean lies between any lower and upper bound of the observations in it |
| Resampler.Resample | iot-backend/app.py:67-68 | one slot per hour, with no missing hour, from the hour of the earliest to the hour of the latest observation; each slot holds its bucket's mean or is unset when the bucket is empty; an empty series gives an empty grid |
| Resampler.ResampleEndsObserved | iot-backend/app.py:67-68 | the first and last slots of a grid are never unset |
| Resampler.ResampleCovers | iot-backend/app.py:67-68 | every observation falls in exactly one slot of the grid, the slot of its hour |
| Resampler.ResampleOrderIndependent | iot-backend/app.py:67-68 | two series with the same observations in any order give the same grid |
| GapFiller.PrevObserved | iot-backend/app.py:67-68 | the nearest set slot at or before a slot |
| GapFiller.NextObserved | iot-backend/app.py:67-68 | the nearest set slot at or after a slot |
| GapFiller.LerpBetween | iot-backend/app.py:67-68 | a linear interpolation lies between its two end values |
| GapFiller.Fill | iot-backend/app.py:67-68 | no point is left unset, the hours are kept, and set slots keep their mean |
| GapFiller.FillInterpolates | iot-backend/app.py:67-68 | an unset slot between set slots `i` and `j`, with none set in between, gets the linear interpolation of their means by position |
| GapFiller.FillBetweenNeighbours | iot-backend/app.py:67-68 | every filled value lies between the values of its nearest set neighbours |
| GapFiller.FillEqualSteps | iot-backend/app.py:67-68 | within a gap, consecutive filled values differ by the same step, `(x_j − x_i) / (j − i)` |
| Merge.Matches | iot-backend/app.py:71-72 | each joined row of one indoor point carries that point's hour and value, and its delta is indoor minus outdoor |
| Merge.Join | iot-backend/app.py:71-72 | every joined row has `delta = indoor − outdoor` |
| Merge.JoinOrigin | iot-backend/app.py:71 | every joined row comes from an indoor point and an outdoor point of the same hour, with their two values |
| Merge.JoinFind | iot-backend/app.py:71 | every hour present in both grids is joined, with both values |
| Merge.MatchesExactlyOne | iot-backend/app.py:71 | an indoor point whose hour occurs exactly once in the outdoor grid gives exactly one row, paired with that outdoor point |
| Merge.MatchesAtMostOne | iot-backend/app.py:71 | against an ascending grid, an indoor point is joined at most once |
| Merge.JoinAscending | iot-backend/app.py:71 | joining two strictly ascending grids gives strictly ascending hours, so no hour is reported twice |
| Merge.Report | iot-backend/app.py:75-80 | the four returned lists have equal length and entry `k` of each list is the matching field of joined row `k` |
| DeltaEndpoint.HourlyGrid | iot-backend/app.py:67-68 | the filled grid spans from the earliest to the latest hour in hourly steps, and keeps the mean at every observed hour |
| DeltaEndpoint.HourlyGridAscending | iot-backend/app.py:67-68 | the hours of a filled grid strictly ascend |
| DeltaEndpoint.Delta | iot-backend/app.py:59-80 | the four lists have equal length and every delta is indoor minus outdoor |
| DeltaEndpoint.DeltaCo2 | iot-backend/app.py:55-80 | the same on the two raw feeds after normalisation |
| DeltaEndpoint.DeltaAscending | iot-backend/app.py:67-80 | returned timestamps are whole hours in strictly ascending order |
| DeltaEndpoint.DeltaSound | iot-backend/app.py:59-80 | each returned row is an hour of both filled grids, with the values of both grids at that hour |
| DeltaEndpoint.DeltaComplete | iot-backend/app.py:59-80 | each hour of both filled grids is returned, with both values and their difference |
| DeltaEndpoint.DeltaHours | iot-backend/app.py:59-80 | each returned hour lies between the hour of the window start and the hour of the window end; where a trimmed feed has readings in that hour, its returned value is their mean |
| DeltaScenario.ScenarioNormalized | iot-backend/app.py:23-26 | in the example, the `n/a` indoor row and the null outdoor field are dropped |
| DeltaScenario.ScenarioWindow | iot-backend/app.py:59-60 | in the example the common window is 0 s to 10800 s |
| DeltaScenario.ScenarioTrim | iot-backend/app.py:63-64 | in the example the indoor reading at 14400 s is trimmed away |
| DeltaScenario.ScenarioReport | iot-backend/app.py:59-80 | in the example, the report is hours 0, 3600 and 7200, with indoor 400, 405 (interpolated) and 410, outdoor 380, 385 and 390 (interpolated), and delta 20 at each hour |
| DeltaScenario.ScenarioDeltaCo2 | iot-backend/app.py:55-80 | the same report from the raw feeds, including the rows that do not parse |

## Left out

- Fetching from ThingSpeak (`iot-backend/app.py:9-20`): HTTP, the API key, the channel ids and the result count are network I/O. The feeds are parameters.
- A failed fetch is not modelled. That is an exception in the fetch, not a response of the endpoint.
- `Feed.GetDataContract` and `Feed.GetData` answer an empty raw feed with two empty lists. In the source, `pd.DataFrame([])` has no columns, so `df['created_at']` raises `KeyError` (`iot-backend/app.py:23-24`) and no response is built. A non-empty feed whose rows all fail to parse gives two empty lists in both.
- Flask routing, `jsonify` and process start-up are dispatch plumbing and are not modelled.
- `strftime` timestamp formatting is not modelled. Timestamps are returned as integer seconds.
- `pd.to_datetime` parsing is not modelled. Each row's `created_at` arrives as integer seconds.
- Time zones are not modelled.
- Floating-point rounding is not modelled, neither in the parsed value ("0.1", digits past the 17th) nor in the mean and the interpolation. Values are exact reals.
- `Numbers.ParseNumber` covers only `[+-](digits[.[digits]] | .digits)[(e|E)[+-]digits]`, that is, digits on at least one side of an optional point.
  - It leaves out `inf`, `nan`, surrounding whitespace and the other forms that `pd.to_numeric` also accepts.
  - Values that are JSON numbers rather than strings are not modelled: ThingSpeak sends field values as strings.
- `Numbers.ParseNumber` has no upper bound on the value. Text whose value lies beyond the double range (about 1.8e308, e.g. "1e400" or an integer of 310 digits) coerces to NaN in the source and its row is dropped, while the model keeps the exact value. The value lemmas below inherit this gap.
- `Numbers.ParseShowNat` states the value for every natural, including those beyond the double range, which the source drops as NaN.
- `Numbers.ParseShowNegative` states the value for every negated natural, including those beyond the double range, which the source drops as NaN.
- `Numbers.ParseDecimal` states the value of `whole.frac` of any size, including values beyond the double range, which the source drops as NaN.
- `Numbers.ParseSignedDecimal` states the value of a signed `whole.frac` of any size, including values beyond the double range, which the source drops as NaN.
- `Numbers.ParseDecimalExponent` states `v * 10^x` and `v / 10^x` for every exponent, including results beyond the double range (e.g. "1.5e400"), which the source drops as NaN.
- `Numbers.ParseShowExponent` states `m * 10^x` for every `m` and `x`, including results beyond the double range (e.g. "1e400"), which the source drops as NaN.
- `Numbers.ParseShowNegativeExponent` states `m / 10^x` for every `m`, including mantissas beyond the double range, which the source drops as NaN.
- `dropna()` also drops a row whose `created_at` or `entry_id` is missing. The model's rows always have an instant.
- `numeric_only=True` and the `entry_id` column are not modelled. The mean is taken over the value column only.
- `GapFiller.Fill` requires the first and last slots to be set. pandas' behaviour for leading or trailing unset buckets is not modelled: `Resampler.ResampleEndsObserved` proves such buckets never reach `Fill` in this pipeline.
- `DeltaEndpoint.Delta` and `DeltaEndpoint.DeltaCo2` require each normalised feed to be non-empty. `min()` and `max()` of an empty column have no instant in the source, so that case is not modelled.
- The single-series endpoint's `fetch` is modelled as a function of the field alone. Channel `2027273` is fixed in the source.

=== FILE: alignment.dfy ===
/** The range intersector of the delta endpoint: the window in which both feeds
    have readings, and the trimming of each feed to it. */
module Alignment {
  import opened Filters
  import opened Feed

  /** The earliest instant of a non-empty series (`created_at.min()`). */
  function Earliest(s: seq<Observation>): (t: int)
    requires |s| > 0
    ensures exists i :: 0 <= i < |s| && s[i].instant == t
    ensures forall i :: 0 <= i < |s| ==> t <= s[i].instant
  {
    if |s| == 1 then s[0].instant
    else
      var rest := Earliest(s[1..]);
      if s[0].instant < rest then s[0].instant else rest
  }

  /** The latest instant of a non-empty series (`created_at.max()`). */
  function Latest(s: seq<Observation>): (t: int)
    requires |s| > 0
    ensures exists i :: 0 <= i < |s| && s[i].instant == t
    ensures forall i :: 0 <= i < |s| ==> s[i].instant <= t
  {
    if |s| == 1 then s[0].instant
    else
      var rest := Latest(s[1..]);
      if s[0].instant > rest then s[0].instant else rest
  }

  /** A closed interval of instants; empty when `start > end`. */
  datatype Window = Window(start: int, end: int)

  predicate Within(w: Window, o: Observation) { w.start <= o.instant <= w.end }

  function InWindow(w: Window): Observation -> bool { o => Within(w, o) }

  /** The common window: it starts at the first instant by which both series
      have begun and ends at the last instant by which neither has ended, that
      is, at the later of the two first instants and the earlier of the two
      last instants. */
  function CommonWindow(a: seq<Observation>, b: seq<Observation>): (w: Window)
    requires |a| > 0 && |b| > 0
    ensures (exists i :: 0 <= i < |a| && a[i].instant <= w.start)
         && (exists j :: 0 <= j < |b| && b[j].instant <= w.start)
    ensures (forall i :: 0 <= i < |a| ==> w.start <= a[i].instant)
         || (forall j :: 0 <= j < |b| ==> w.start <= b[j].instant)
    ensures (exists i :: 0 <= i < |a| && w.end <= a[i].instant)
         && (exists j :: 0 <= j < |b| && w.end <= b[j].instant)
    ensures (forall i :: 0 <= i < |a| ==> a[i].instant <= w.end)
         || (forall j :: 0 <= j < |b| ==> b[j].instant <= w.end)
  {
    var first := if Earliest(a) < Earliest(b) then Earliest(b) else Earliest(a);
    var last := if Latest(a) < Latest(b) then Latest(a) else Latest(b);
    Window(first, last)
  }

  /** The observations of `s` inside `w`, in order (the boolean mask on
      `created_at`). */
  function Trim(s: seq<Observation>, w: Window): (r: seq<Observation>)
    ensures forall k :: 0 <= k < |r| ==> Within(w, r[k])
  {
    Filter(s, InWindow(w))
  }

  /** Trimming keeps exactly the observations with `start <= instant <= end`,
      each once, in order, unchanged. */
  lemma TrimSelects(s: seq<Observation>, w: Window) returns (idx: seq<nat>)
    ensures forall k, l :: 0 <= k < l < |idx| ==> idx[k] < idx[l]
    ensures forall i :: 0 <= i < |s| ==> (Within(w, s[i]) <==> i in idx)
    ensures |idx| == |Trim(s, w)|
    ensures forall k :: 0 <= k < |idx| ==> idx[k] < |s| && Trim(s, w)[k] == s[idx[k]]
  {
    idx := FilterSelects(s, InWindow(w));
    assert forall i :: 0 <= i < |s| ==> (InWindow(w)(s[i]) <==> Within(w, s[i]));
  }

  /** When the two feeds do not overlap the window is empty and trimming
      leaves nothing: the endpoint then answers with empty lists. */
  lemma TrimEmptyWindow(s: seq<Observation>, w: Window)
    requires w.end < w.start
    ensures Trim(s, w) == []
  {
    FilterNone(s, InWindow(w));
  }
}

=== FILE: delta.dfy ===
/** The delta endpoint end to end: normalise both feeds, trim them to their
    common window, resample each hourly, fill the gaps, join on the hour and
    subtract. The two feeds are parameters; the endpoint fetches them over HTTP. */
module DeltaEndpoint {
  import opened Feed
  import opened Alignment
  import opened Resampler
  import opened GapFiller
  import opened Merge

  /** A trimmed series on the hourly grid with every gap filled. */
  function HourlyGrid(s: seq<Observation>): (g: seq<Point>)
    ensures s == [] ==> g == []
    ensures s != [] ==> |g| > 0 && g[0].at == HourOf(Earliest(s)) && g[|g| - 1].at == HourOf(Latest(s))
    ensures forall k :: 0 <= k < |g| ==> g[k].at % Hour == 0 && g[k].at == g[0].at + k * Hour
    ensures forall k :: 0 <= k < |g| && MeanIn(s, g[k].at).Some? ==> g[k].value == MeanIn(s, g[k].at).value
  {
    var slots := Resample(s);
    if s == [] then Fill(slots)
    else
      ResampleEndsObserved(s);
      Fill(slots)
  }

  /** The hours of an hourly grid strictly ascend. */
  lemma HourlyGridAscending(s: seq<Observation>)
    ensures StrictlyAscending(HourlyGrid(s))
  {
    var g := HourlyGrid(s);
    forall i, j | 0 <= i < j < |g|
      ensures g[i].at < g[j].at
    {
      assert g[i].at == g[0].at + i * Hour && g[j].at == g[0].at + j * Hour;
    }
  }

  /** A grid of observations inside a window stays between the window's hours. */
  lemma HourlyGridWithin(s: seq<Observation>, w: Window)
    requires forall i :: 0 <= i < |s| ==> Within(w, s[i])
    ensures forall k :: 0 <= k < |HourlyGrid(s)| ==>
              HourOf(w.start) <= HourlyGrid(s)[k].at <= HourOf(w.end)
  {
    var g := HourlyGrid(s);
    if s != [] {
      HourlyGridAscending(s);
      var e :| 0 <= e < |s| && s[e].instant == Earliest(s);
      var l :| 0 <= l < |s| && s[l].instant == Latest(s);
      HourOfMonotone(w.start, Earliest(s));
      HourOfMonotone(Latest(s), w.end);
      forall k | 0 <= k < |g|
        ensures HourOf(w.start) <= g[k].at <= HourOf(w.end)
      {
        assert g[0].at <= g[k].at <= g[|g| - 1].at;
      }
    }
  }

  /** The two filled hourly grids, indoor and outdoor, of two normalised
      feeds trimmed to their common window. */
  function Grids(a: seq<Observation>, b: seq<Observation>): (seq<Point>, seq<Point>)
    requires |a| > 0 && |b| > 0
  {
    var w := CommonWindow(a, b);
    (HourlyGrid(Trim(a, w)), HourlyGrid(Trim(b, w)))
  }

  /** The delta computation on two normalised feeds: four parallel lists, and
      each delta is the indoor value minus the outdoor value of its hour. */
  function Delta(a: seq<Observation>, b: seq<Observation>): (r: DeltaReport)
    requires |a| > 0 && |b| > 0
    ensures |r.timestamps| == |r.indoor| == |r.outdoor| == |r.delta|
    ensures forall k :: 0 <= k < |r.delta| ==> r.delta[k] == r.indoor[k] - r.outdoor[k]
  {
    var (indoor, outdoor) := Grids(a, b);
    Report(Join(indoor, outdoor))
  }

  /** The delta endpoint on the two raw feeds; both must keep at least one
      reading after normalisation. */
  function DeltaCo2(indoorFeed: seq<RawRow>, outdoorFeed: seq<RawRow>): (r: DeltaReport)
    requires |Normalize(indoorFeed)| > 0 && |Normalize(outdoorFeed)| > 0
    ensures |r.timestamps| == |r.indoor| == |r.outdoor| == |r.delta|
    ensures forall k :: 0 <= k < |r.delta| ==> r.delta[k] == r.indoor[k] - r.outdoor[k]
  {
    Delta(Normalize(indoorFeed), Normalize(outdoorFeed))
  }

  /** The returned hours are whole hours and strictly ascend, so no hour is
      reported twice. */
  lemma DeltaAscending(a: seq<Observation>, b: seq<Observation>)
    requires |a| > 0 && |b| > 0
    ensures var ts := Delta(a, b).timestamps;
            && (forall k :: 0 <= k < |ts| ==> ts[k] % Hour == 0)
            && (forall k, l :: 0 <= k < l < |ts| ==> ts[k] < ts[l])
  {
    var w := CommonWindow(a, b);
    var (indoor, outdoor) := Grids(a, b);
    HourlyGridAscending(Trim(a, w));
    HourlyGridAscending(Trim(b, w));
    JoinAscending(indoor, outdoor);
    var rows := Join(indoor, outdoor);
    forall k | 0 <= k < |rows|
      ensures rows[k].at % Hour == 0
    {
      var i, j := JoinOrigin(indoor, outdoor, k);
    }
  }

  /** Each returned row is an hour present in both filled grids, with the two
      grids' values at that hour. */
  lemma DeltaSound(a: seq<Observation>, b: seq<Observation>, k: nat) returns (i: nat, j: nat)
    requires |a| > 0 && |b| > 0
    requires k < |Delta(a, b).timestamps|
    ensures var (indoor, outdoor) := Grids(a, b);
            var r := Delta(a, b);
            && i < |indoor| && j < |outdoor|
            && indoor[i].at == outdoor[j].at == r.timestamps[k]
            && r.indoor[k] == indoor[i].value && r.outdoor[k] == outdoor[j].value
  {
    var (indoor, outdoor) := Grids(a, b);
    i, j := JoinOrigin(indoor, outdoor, k);
  }

  /** Every hour present in both filled grids is returned, with both values. */
  lemma DeltaComplete(a: seq<Observation>, b: seq<Observation>, i: nat, j: nat) returns (k: nat)
    requires |a| > 0 && |b| > 0
    requires i < |Grids(a, b).0| && j < |Grids(a, b).1|
    requires Grids(a, b).0[i].at == Grids(a, b).1[j].at
    ensures var (indoor, outdoor) := Grids(a, b);
            var r := Delta(a, b);
            && k < |r.timestamps| && r.timestamps[k] == indoor[i].at
            && r.indoor[k] == indoor[i].value && r.outdoor[k] == outdoor[j].value
            && r.delta[k] == indoor[i].value - outdoor[j].value
  {
    var (indoor, outdoor) := Grids(a, b);
    k := JoinFind(indoor, outdoor, i, j);
  }

  /** Every returned hour lies between the hour of the window's start and the
      hour of its end, and at an hour where a trimmed feed has readings the
      returned value of that feed is their mean. */
  lemma DeltaHours(a: seq<Observation>, b: seq<Observation>, k: nat)
    requires |a| > 0 && |b| > 0
    requires k < |Delta(a, b).timestamps|
    ensures var w := CommonWindow(a, b);
            var r := Delta(a, b);
            var t := r.timestamps[k];
            && HourOf(w.start) <= t <= HourOf(w.end)
            && (MeanIn(Trim(a, w), t).Some? ==> r.indoor[k] == MeanIn(Trim(a, w), t).value)
            && (MeanIn(Trim(b, w), t).Some? ==> r.outdoor[k] == MeanIn(Trim(b, w), t).value)
  {
    var w := CommonWindow(a, b);
    var i, j := DeltaSound(a, b, k);
    HourlyGridWithin(Trim(a, w), w);
  }
}

=== FILE: feed.dfy ===
/** What the backend does with one sensor feed: the chart-type selector of the
    single-series endpoint and the normalisation of the fetched rows into
    (instant, value) observations. The HTTP fetch itself is a parameter. */
module Feed {
  import opened Wrappers
  import opened Filters
  import opened Numbers

  /** One entry of a feed: its creation instant, in seconds since the epoch,
      and the text of the requested field (`None` for a JSON null). */
  datatype RawRow = RawRow(createdAt: int, field: Option<string>)

  /** A normalised reading: the instant and the numeric value. */
  datatype Observation = Observation(instant: int, value: real)

  /** The answer of the single-series endpoint: the instants and values of the
      normalised feed, or an error status with its message. */
  datatype Response =
    | Series(timestamps: seq<int>, values: seq<real>)
    | Failure(status: nat, message: string)

  /** The chart types the single-series endpoint serves. */
  const ChartTypes: set<string> := {"co2", "temperature", "humidity", "pressure"}

  /** The feed field that holds a chart type's quantity, or `None` for a name
      the endpoint does not serve. */
  function FieldFor(chartType: string): (r: Option<nat>)
    ensures r.Some? <==> chartType in ChartTypes
    ensures chartType == "co2" ==> r == Some(4)
    ensures chartType == "temperature" ==> r == Some(1)
    ensures chartType == "humidity" ==> r == Some(6)
    ensures chartType == "pressure" ==> r == Some(7)
  {
    if chartType == "co2" then Some(4)
    else if chartType == "temperature" then Some(1)
    else if chartType == "humidity" then Some(6)
    else if chartType == "pressure" then Some(7)
    else None
  }

  /** Distinct chart types never read the same field. */
  lemma FieldForInjective(a: string, b: string)
    requires FieldFor(a).Some? && FieldFor(a) == FieldFor(b)
    ensures a == b
  {
  }

  /** The coerced numeric value of a row: `None` when the field is null or its
      text is not a number. */
  function ReadingOf(row: RawRow): Option<real>
  {
    match row.field
    case None => None
    case Some(text) => ParseNumber(text)
  }

  predicate Parses(row: RawRow) { ReadingOf(row).Some? }

  function ToObservation(row: RawRow): Observation
    requires Parses(row)
  {
    Observation(row.createdAt, ReadingOf(row).value)
  }

  /** Coerce each row's field to a number and drop the rows where that fails. */
  function Normalize(rows: seq<RawRow>): (obs: seq<Observation>)
    ensures |obs| <= |rows|
  {
    var kept := Filter(rows, Parses);
    seq(|kept|, k requires 0 <= k < |kept| => ToObservation(kept[k]))
  }

  /** Normalisation keeps exactly the rows whose field parses as a number, each
      once, in their original order, with the instant and the parsed value
      unchanged. */
  lemma NormalizeSelects(rows: seq<RawRow>) returns (idx: seq<nat>)
    ensures IsSelection(rows, idx, Parses)
    ensures |idx| == |Normalize(rows)|
    ensures forall k :: 0 <= k < |idx| ==>
              Normalize(rows)[k] == Observation(rows[idx[k]].createdAt, ReadingOf(rows[idx[k]]).value)
  {
    idx := FilterSelects(rows, Parses);
  }

  /** A row with a non-numeric or null field is dropped without affecting the
      rest of the batch. */
  lemma NormalizeDropsUnparsable(before: seq<RawRow>, row: RawRow, after: seq<RawRow>)
    requires !Parses(row)
    ensures Normalize(before + [row] + after) == Normalize(before + after)
  {
    FilterSkips(before, row, after, Parses);
  }

  function Instants(obs: seq<Observation>): (ts: seq<int>)
    ensures |ts| == |obs| && forall k :: 0 <= k < |obs| ==> ts[k] == obs[k].instant
  {
    seq(|obs|, k requires 0 <= k < |obs| => obs[k].instant)
  }

  function Values(obs: seq<Observation>): (vs: seq<real>)
    ensures |vs| == |obs| && forall k :: 0 <= k < |obs| ==> vs[k] == obs[k].value
  {
    seq(|obs|, k requires 0 <= k < |obs| => obs[k].value)
  }

  /** The single-series endpoint: select the field, fetch the feed with
      `fetch`, normalise it and return its instants and values. */
  function GetData(chartType: string, fetch: nat -> seq<RawRow>): (r: Response)
    ensures r.Failure? <==> chartType !in ChartTypes
    ensures r.Failure? ==> r.status == 400 && r.message == "Invalid chart type"
    ensures r.Series? ==>
              |r.timestamps| == |r.values| <= |fetch(FieldFor(chartType).value)|
  {
    match FieldFor(chartType)
    case None => Failure(400, "Invalid chart type")
    case Some(field) =>
      var obs := Normalize(fetch(field));
      Series(Instants(obs), Values(obs))
  }

  /** An unknown chart type is answered with status 400 whatever the feed
      holds: it is rejected before any fetch. A known one returns the two
      parallel lists of the normalised feed of its field. */
  lemma GetDataContract(chartType: string, fetch: nat -> seq<RawRow>, other: nat -> seq<RawRow>)
    ensures chartType !in ChartTypes ==>
              GetData(chartType, fetch) == GetData(chartType, other) == Failure(400, "Invalid chart type")
    ensures chartType in ChartTypes ==>
              var r := GetData(chartType, fetch);
              var obs := Normalize(fetch(FieldFor(chartType).value));
              && r.Series?
              && |r.timestamps| == |r.values| == |obs|
              && forall k :: 0 <= k < |obs| ==>
                   r.timestamps[k] == obs[k].instant && r.values[k] == obs[k].value
  {
  }
}

=== FILE: filters.dfy ===
/** Order-preserving selection of the elements of a sequence, the plain-sequence
    meaning of a boolean-mask filter over a table (`df[mask]`, `df.dropna()`). */
module Filters {

  /** The elements of `s` that satisfy `keep`, in their original order. */
  function Filter<A>(s: seq<A>, keep: A -> bool): (r: seq<A>)
    ensures |r| <= |s|
    ensures forall k :: 0 <= k < |r| ==> keep(r[k])
  {
    if s == [] then []
    else Filter(s[..|s| - 1], keep) + (if keep(s[|s| - 1]) then [s[|s| - 1]] else [])
  }

  /** `idx` lists, in strictly increasing order, exactly the positions of `s`
      whose element satisfies `keep`. */
  ghost predicate IsSelection<A>(s: seq<A>, idx: seq<nat>, keep: A -> bool)
  {
    && (forall k :: 0 <= k < |idx| ==> idx[k] < |s|)
    && (forall k, l :: 0 <= k < l < |idx| ==> idx[k] < idx[l])
    && (forall i :: 0 <= i < |s| ==> (keep(s[i]) <==> i in idx))
  }

  /** `Filter` keeps exactly the elements satisfying `keep`, each once, in order
      and unchanged: its result is `s` read at the positions of a selection. */
  lemma {:induction false} FilterSelects<A>(s: seq<A>, keep: A -> bool) returns (idx: seq<nat>)
    ensures IsSelection(s, idx, keep)
    ensures |idx| == |Filter(s, keep)|
    ensures forall k :: 0 <= k < |idx| ==> Filter(s, keep)[k] == s[idx[k]]
  {
    if s == [] {
      idx := [];
    } else {
      var n := |s| - 1;
      var front := FilterSelects(s[..n], keep);
      assert forall k :: 0 <= k < |front| ==> front[k] < n;
      assert forall i :: 0 <= i < n ==> (keep(s[i]) <==> i in front) by {
        forall i | 0 <= i < n
          ensures keep(s[i]) <==> i in front
        {
          assert s[..n][i] == s[i];
        }
      }
      assert Filter(s, keep) == Filter(s[..n], keep) + (if keep(s[n]) then [s[n]] else []);
      assert forall k :: 0 <= k < |front| ==> Filter(s, keep)[k] == s[front[k]] by {
        forall k | 0 <= k < |front|
          ensures Filter(s, keep)[k] == s[front[k]]
        {
          assert s[..n][front[k]] == s[front[k]];
        }
      }
      if keep(s[n]) {
        idx := front + [n];
      } else {
        idx := front;
        assert n !in idx;
      }
    }
  }

  /** Filtering distributes over concatenation. */
  lemma {:induction false} FilterAppend<A>(s: seq<A>, t: seq<A>, keep: A -> bool)
    ensures Filter(s + t, keep) == Filter(s, keep) + Filter(t, keep)
  {
    if t != [] {
      var n := |t| - 1;
      assert (s + t)[..|s + t| - 1] == s + t[..n];
      FilterAppend(s, t[..n], keep);
    } else {
      assert s + t == s;
    }
  }

  /** An element that fails `keep` can be removed before filtering. */
  lemma FilterSkips<A>(before: seq<A>, x: A, after: seq<A>, keep: A -> bool)
    requires !keep(x)
    ensures Filter(before + [x] + after, keep) == Filter(before + after, keep)
  {
    FilterAppend(before + [x], after, keep);
    FilterAppend(before, [x], keep);
    FilterAppend(before, after, keep);
    assert Filter([x], keep) == Filter([], keep) + [];
    assert [x][..0] == [];
  }

  /** Nothing survives a filter that no element passes. */
  lemma {:induction false} FilterNone<A>(s: seq<A>, keep: A -> bool)
    requires forall i :: 0 <= i < |s| ==> !keep(s[i])
    ensures Filter(s, keep) == []
  {
    if s != [] {
      FilterNone(s[..|s| - 1], keep);
    }
  }
}

=== FILE: gapfiller.dfy ===
/** The gap filler of the delta endpoint (`.interpolate()` after the hourly
    resample): every hour left without a mean takes the value on the straight
    line between the nearest hours before and after it that have one. */
module GapFiller {
  import opened Wrappers
  import opened Resampler

  /** A slot of a filled grid: every hour has a value. */
  datatype Point = Point(at: int, value: real)

  /** The first and the last slot hold a mean (true of every resampled grid,
      see `ResampleEndsObserved`), so every unset slot lies between two set ones. */
  predicate EndsObserved(g: seq<Slot>)
  {
    |g| > 0 ==> g[0].mean.Some? && g[|g| - 1].mean.Some?
  }

  /** The nearest slot at or before `k` that holds a mean. */
  function PrevObserved(g: seq<Slot>, k: nat): (i: nat)
    requires EndsObserved(g) && k < |g|
    ensures i <= k && g[i].mean.Some?
    ensures forall m :: i < m <= k ==> g[m].mean.None?
  {
    if g[k].mean.Some? then k else PrevObserved(g, k - 1)
  }

  /** The nearest slot at or after `k` that holds a mean. */
  function NextObserved(g: seq<Slot>, k: nat): (j: nat)
    requires EndsObserved(g) && k < |g|
    ensures k <= j < |g| && g[j].mean.Some?
    ensures forall m :: k <= m < j ==> g[m].mean.None?
    decreases |g| - k
  {
    if g[k].mean.Some? then k else NextObserved(g, k + 1)
  }

  /** The point `step / span` of the way from `x0` to `x1`. */
  function Lerp(x0: real, x1: real, step: nat, span: nat): real
    requires span > 0
  {
    x0 + (x1 - x0) * (step as real / span as real)
  }

  /** Between its end points, a straight line stays between their values. */
  lemma LerpBetween(x0: real, x1: real, step: nat, span: nat)
    requires 0 <= step <= span && span > 0
    ensures x0 <= x1 ==> x0 <= Lerp(x0, x1, step, span) <= x1
    ensures x1 <= x0 ==> x1 <= Lerp(x0, x1, step, span) <= x0
  {
    var f := step as real / span as real;
    assert 0.0 <= f <= 1.0 by {
      assert f * span as real == step as real;
    }
    FractionOf(x1 - x0, f);
  }

  /** A fraction of a difference lies between zero and the difference. */
  lemma FractionOf(d: real, f: real)
    requires 0.0 <= f <= 1.0
    ensures d >= 0.0 ==> 0.0 <= d * f <= d
    ensures d <= 0.0 ==> d <= d * f <= 0.0
  {
    assert d * f - d == d * (f - 1.0);
    assert f - 1.0 <= 0.0;
  }

  /** Equal steps along a straight line; its end points are the two values. */
  lemma LerpStep(x0: real, x1: real, step: nat, span: nat)
    requires step < span
    ensures Lerp(x0, x1, step + 1, span) - Lerp(x0, x1, step, span) == (x1 - x0) / span as real
    ensures Lerp(x0, x1, 0, span) == x0 && Lerp(x0, x1, span, span) == x1
  {
    var d := span as real;
    assert (step + 1) as real / d - step as real / d == 1.0 / d;
    assert (x1 - x0) * (1.0 / d) == (x1 - x0) / d;
  }

  /** The value gap filling gives slot `k`: its own mean when it has one,
      otherwise the interpolation between its nearest set neighbours. */
  function FilledValue(g: seq<Slot>, k: nat): real
    requires EndsObserved(g) && k < |g|
  {
    match g[k].mean
    case Some(v) => v
    case None =>
      var i := PrevObserved(g, k);
      var j := NextObserved(g, k);
      Lerp(g[i].mean.value, g[j].mean.value, k - i, j - i)
  }

  /** Fill every unset slot; set slots keep their mean and every slot keeps its hour. */
  function Fill(g: seq<Slot>): (r: seq<Point>)
    requires EndsObserved(g)
    ensures |r| == |g|
    ensures forall k :: 0 <= k < |g| ==> r[k].at == g[k].at
    ensures forall k :: 0 <= k < |g| && g[k].mean.Some? ==> r[k].value == g[k].mean.value
  {
    seq(|g|, k requires 0 <= k < |g| => Point(g[k].at, FilledValue(g, k)))
  }

  /** An unset slot `k` lying strictly between the set slots `i` and `j`, with
      nothing set in between, is filled on the straight line from slot `i`'s mean
      to slot `j`'s. */
  lemma FillInterpolates(g: seq<Slot>, i: nat, k: nat, j: nat)
    requires EndsObserved(g)
    requires i < k < j < |g|
    requires g[i].mean.Some? && g[j].mean.Some?
    requires forall m :: i < m < j ==> g[m].mean.None?
    ensures Fill(g)[k].value == Lerp(g[i].mean.value, g[j].mean.value, k - i, j - i)
  {
    assert PrevObserved(g, k) == i;
    assert NextObserved(g, k) == j;
  }

  /** The value gap filling gives slot `k`. */
  lemma FillValue(g: seq<Slot>, k: nat)
    requires EndsObserved(g) && k < |g|
    ensures Fill(g)[k].value == FilledValue(g, k)
  {
  }

  /** An unset slot takes the interpolation between its nearest set neighbours. */
  lemma FillGap(g: seq<Slot>, k: nat)
    requires EndsObserved(g) && k < |g| && g[k].mean.None?
    ensures PrevObserved(g, k) < k < NextObserved(g, k)
    ensures var i, j := PrevObserved(g, k), NextObserved(g, k);
            Fill(g)[k].value == Lerp(g[i].mean.value, g[j].mean.value, k - i, j - i)
  {
    FillValue(g, k);
  }

  /** A filled slot lies between the means of its nearest set neighbours. */
  lemma FillBetweenNeighbours(g: seq<Slot>, k: nat)
    requires EndsObserved(g) && k < |g|
    ensures var lo, hi := g[PrevObserved(g, k)].mean.value, g[NextObserved(g, k)].mean.value;
            (lo <= hi ==> lo <= Fill(g)[k].value <= hi)
            && (hi <= lo ==> hi <= Fill(g)[k].value <= lo)
  {
    if g[k].mean.None? {
      GapBetweenNeighbours(g, k);
    } else {
      FillValue(g, k);
      assert PrevObserved(g, k) == k == NextObserved(g, k);
    }
  }

  lemma GapBetweenNeighbours(g: seq<Slot>, k: nat)
    requires EndsObserved(g) && k < |g| && g[k].mean.None?
    ensures var lo, hi := g[PrevObserved(g, k)].mean.value, g[NextObserved(g, k)].mean.value;
            (lo <= hi ==> lo <= Fill(g)[k].value <= hi)
            && (hi <= lo ==> hi <= Fill(g)[k].value <= lo)
  {
    var i := PrevObserved(g, k);
    var j := NextObserved(g, k);
    FillGap(g, k);
    LerpBetween(g[i].mean.value, g[j].mean.value, k - i, j - i);
  }

  /** Across one gap the filled values climb in equal steps: consecutive slots
      from one set slot to the next differ by the same amount. */
  lemma FillEqualSteps(g: seq<Slot>, i: nat, k: nat, j: nat)
    requires EndsObserved(g)
    requires i <= k < j < |g|
    requires g[i].mean.Some? && g[j].mean.Some?
    requires forall m :: i < m < j ==> g[m].mean.None?
    ensures Fill(g)[k + 1].value - Fill(g)[k].value
         == (g[j].mean.value - g[i].mean.value) / (j - i) as real
  {
    var x0, x1 := g[i].mean.value, g[j].mean.value;
    LerpStep(x0, x1, k - i, j - i);
    if k > i {
      FillInterpolates(g, i, k, j);
    } else {
      assert Fill(g)[k].value == x0 == Lerp(x0, x1, k - i, j - i);
    }
    if k + 1 < j {
      FillInterpolates(g, i, k + 1, j);
    } else {
      assert Fill(g)[k + 1].value == x1 == Lerp(x0, x1, k + 1 - i, j - i);
    }
  }
}

=== FILE: merge.dfy ===
/** The inner join of the two filled grids on their hour (`pd.merge(...,
    on='created_at')`), the per-row difference indoor minus outdoor, and the
    four parallel lists the delta endpoint returns. */
module Merge {
  import opened GapFiller

  /** A joined row: the hour, both values and their difference. */
  datatype Row = Row(at: int, indoor: real, outdoor: real, delta: real)

  /** The hours of `g` strictly increase, so each hour occurs at most once. */
  predicate StrictlyAscending(g: seq<Point>)
  {
    forall i, j :: 0 <= i < j < |g| ==> g[i].at < g[j].at
  }

  /** The rows contributed by left point `p`: one per right point with the same
      hour, in right order. */
  function Matches(p: Point, b: seq<Point>): (rows: seq<Row>)
    ensures forall k :: 0 <= k < |rows| ==>
              rows[k].at == p.at && rows[k].indoor == p.value
              && rows[k].delta == rows[k].indoor - rows[k].outdoor
  {
    if b == [] then []
    else
      (if b[0].at == p.at then [Row(p.at, p.value, b[0].value, p.value - b[0].value)] else [])
      + Matches(p, b[1..])
  }

  /** The inner join in left order; every row carries `indoor - outdoor`. */
  function Join(a: seq<Point>, b: seq<Point>): (rows: seq<Row>)
    ensures forall k :: 0 <= k < |rows| ==> rows[k].delta == rows[k].indoor - rows[k].outdoor
  {
    if a == [] then [] else Matches(a[0], b) + Join(a[1..], b)
  }

  lemma {:induction false} MatchesOrigin(p: Point, b: seq<Point>, k: nat) returns (j: nat)
    requires k < |Matches(p, b)|
    ensures j < |b| && b[j].at == p.at && Matches(p, b)[k].outdoor == b[j].value
  {
    var head := if b[0].at == p.at then [Row(p.at, p.value, b[0].value, p.value - b[0].value)] else [];
    if k < |head| {
      j := 0;
    } else {
      var j' := MatchesOrigin(p, b[1..], k - |head|);
      j := j' + 1;
    }
  }

  lemma {:induction false} MatchesFind(p: Point, b: seq<Point>, j: nat) returns (k: nat)
    requires j < |b| && b[j].at == p.at
    ensures k < |Matches(p, b)| && Matches(p, b)[k].outdoor == b[j].value
  {
    var head := if b[0].at == p.at then [Row(p.at, p.value, b[0].value, p.value - b[0].value)] else [];
    if j == 0 {
      k := 0;
    } else {
      var k' := MatchesFind(p, b[1..], j - 1);
      k := k' + |head|;
    }
  }

  lemma {:induction false} MatchesAtMostOne(p: Point, b: seq<Point>)
    requires StrictlyAscending(b)
    ensures |Matches(p, b)| <= 1
  {
    if b != [] {
      if b[0].at == p.at {
        assert forall j :: 0 <= j < |b[1..]| ==> b[1..][j].at > p.at by {
          forall j | 0 <= j < |b[1..]|
            ensures b[1..][j].at > p.at
          {
            assert b[1..][j] == b[j + 1];
          }
        }
        MatchesNone(p, b[1..]);
      } else {
        MatchesAtMostOne(p, b[1..]);
      }
    }
  }

  lemma {:induction false} MatchesNone(p: Point, b: seq<Point>)
    requires forall j :: 0 <= j < |b| ==> b[j].at != p.at
    ensures Matches(p, b) == []
  {
    if b != [] {
      MatchesNone(p, b[1..]);
    }
  }

  /** A left point whose hour occurs exactly once on the right gives exactly
      one row, paired with that right point. */
  lemma {:induction false} MatchesExactlyOne(p: Point, b: seq<Point>, j: nat)
    requires j < |b| && b[j].at == p.at
    requires forall l :: 0 <= l < |b| && l != j ==> b[l].at != p.at
    ensures Matches(p, b) == [Row(p.at, p.value, b[j].value, p.value - b[j].value)]
  {
    if j == 0 {
      forall l | 0 <= l < |b[1..]|
        ensures b[1..][l].at != p.at
      {
        assert b[1..][l] == b[l + 1];
      }
      MatchesNone(p, b[1..]);
    } else {
      forall l | 0 <= l < |b[1..]| && l != j - 1
        ensures b[1..][l].at != p.at
      {
        assert b[1..][l] == b[l + 1];
      }
      MatchesExactlyOne(p, b[1..], j - 1);
    }
  }

  /** Every joined row comes from a left point and a right point with its hour,
      and carries their two values. */
  lemma {:induction false} JoinOrigin(a: seq<Point>, b: seq<Point>, k: nat) returns (i: nat, j: nat)
    requires k < |Join(a, b)|
    ensures i < |a| && j < |b|
    ensures a[i].at == b[j].at == Join(a, b)[k].at
    ensures Join(a, b)[k].indoor == a[i].value && Join(a, b)[k].outdoor == b[j].value
  {
    var m := Matches(a[0], b);
    if k < |m| {
      i := 0;
      j := MatchesOrigin(a[0], b, k);
    } else {
      var i';
      i', j := JoinOrigin(a[1..], b, k - |m|);
      i := i' + 1;
    }
  }

  /** Every pair of a left and a right point with the same hour gives a row. */
  lemma {:induction false} JoinFind(a: seq<Point>, b: seq<Point>, i: nat, j: nat) returns (k: nat)
    requires i < |a| && j < |b| && a[i].at == b[j].at
    ensures k < |Join(a, b)|
    ensures Join(a, b)[k].at == a[i].at
    ensures Join(a, b)[k].indoor == a[i].value && Join(a, b)[k].outdoor == b[j].value
  {
    var m := Matches(a[0], b);
    if i == 0 {
      k := MatchesFind(a[0], b, j);
    } else {
      var k' := JoinFind(a[1..], b, i - 1, j);
      k := k' + |m|;
    }
  }

  /** On two grids whose hours ascend, the joined hours ascend strictly: every
      hour common to both grids occurs in exactly one row. */
  lemma {:induction false} JoinAscending(a: seq<Point>, b: seq<Point>)
    requires StrictlyAscending(a) && StrictlyAscending(b)
    ensures forall k, l :: 0 <= k < l < |Join(a, b)| ==> Join(a, b)[k].at < Join(a, b)[l].at
  {
    if a != [] {
      var m := Matches(a[0], b);
      var rest := Join(a[1..], b);
      JoinAscending(a[1..], b);
      MatchesAtMostOne(a[0], b);
      forall l | 0 <= l < |rest|
        ensures a[0].at < rest[l].at
      {
        var i, j := JoinOrigin(a[1..], b, l);
        assert a[1..][i] == a[i + 1];
      }
      assert Join(a, b) == m + rest;
    }
  }

  /** The endpoint's answer: four parallel lists, one entry per joined row. */
  datatype DeltaReport = DeltaReport(timestamps: seq<int>, indoor: seq<real>, outdoor: seq<real>, delta: seq<real>)

  /** Split the joined rows into the four lists; the lists have equal length
      and each delta is its row's indoor value minus its outdoor value. */
  function Report(rows: seq<Row>): (r: DeltaReport)
    requires forall k :: 0 <= k < |rows| ==> rows[k].delta == rows[k].indoor - rows[k].outdoor
    ensures |r.timestamps| == |r.indoor| == |r.outdoor| == |r.delta| == |rows|
    ensures forall k :: 0 <= k < |rows| ==>
              r.timestamps[k] == rows[k].at && r.indoor[k] == rows[k].indoor
              && r.outdoor[k] == rows[k].outdoor && r.delta[k] == r.indoor[k] - r.outdoor[k]
  {
    DeltaReport(
      seq(|rows|, k requires 0 <= k < |rows| => rows[k].at),
      seq(|rows|, k requires 0 <= k < |rows| => rows[k].indoor),
      seq(|rows|, k requires 0 <= k < |rows| => rows[k].outdoor),
      seq(|rows|, k requires 0 <= k < |rows| => rows[k].delta))
  }
}

=== FILE: numbers.dfy ===
/** The numeric coercion applied to each raw reading (`pd.to_numeric(...,
    errors='coerce')`): a decimal string becomes a number, anything else becomes
    the missing value. Exact reals stand in for the floating-point result. */
module Numbers {
  import opened Wrappers

  predicate IsDigit(c: char) { '0' <= c <= '9' }

  predicate AllDigits(s: string) { forall i :: 0 <= i < |s| ==> IsDigit(s[i]) }

  /** The characters any accepted reading is made of. */
  predicate IsNumberChar(c: char)
  {
    IsDigit(c) || c == '+' || c == '-' || c == '.' || IsExponentMark(c)
  }

  /** Value of a string of decimal digits, most significant digit first. */
  function DigitsValue(s: string): (n: nat)
    requires AllDigits(s)
  {
    if s == [] then 0
    else DigitsValue(s[..|s| - 1]) * 10 + (s[|s| - 1] as int - '0' as int)
  }

  function Pow10(n: nat): (p: nat)
    ensures p >= 1
  {
    if n == 0 then 1 else 10 * Pow10(n - 1)
  }

  /** Position of the first character of `s` satisfying `stop`, or `|s|` if none does. */
  function FirstWhere(s: string, stop: char -> bool): (i: nat)
    ensures i <= |s|
    ensures i < |s| ==> stop(s[i])
    ensures forall j :: 0 <= j < i ==> !stop(s[j])
  {
    if s == [] then 0
    else if stop(s[0]) then 0
    else 1 + FirstWhere(s[1..], stop)
  }

  predicate IsDot(c: char) { c == '.' }

  predicate IsExponentMark(c: char) { c == 'e' || c == 'E' }

  /** Text that can stand before an exponent mark: non-empty, unsigned and
      without an exponent mark of its own. */
  predicate PlainMantissa(a: string)
  {
    && |a| > 0 && a[0] != '-' && a[0] != '+'
    && forall j :: 0 <= j < |a| ==> !IsExponentMark(a[j])
  }

  /** `digits[.digits]` with at least one digit on either side of the point. */
  function ParseMantissa(s: string): (r: Option<real>)
  {
    var d := FirstWhere(s, IsDot);
    MantissaOf(s[..d], if d < |s| then s[d + 1..] else [])
  }

  /** The value of the digits before and after a decimal point. */
  function MantissaOf(whole: string, frac: string): (r: Option<real>)
  {
    if AllDigits(whole) && AllDigits(frac) && |whole| + |frac| > 0 then
      Some(DecimalValue(whole, frac))
    else None
  }

  /** `whole + frac / 10^|frac|`, the value of the digits around a point. */
  function DecimalValue(whole: string, frac: string): real
    requires AllDigits(whole) && AllDigits(frac)
  {
    DigitsValue(whole) as real + DigitsValue(frac) as real / Pow10(|frac|) as real
  }

  /** `[+|-]digits`, the power of ten after an exponent mark. */
  function ParseExponent(s: string): (r: Option<int>)
  {
    if |s| > 0 && (s[0] == '+' || s[0] == '-') then
      if |s| > 1 && AllDigits(s[1..]) then
        Some(if s[0] == '-' then -(DigitsValue(s[1..]) as int) else DigitsValue(s[1..]))
      else None
    else if |s| > 0 && AllDigits(s) then Some(DigitsValue(s))
    else None
  }

  function Scale(m: real, x: int): real
  {
    if x >= 0 then m * Pow10(x) as real else m / Pow10(-x) as real
  }

  /** A mantissa with an optional exponent part. */
  function ParseUnsigned(s: string): (r: Option<real>)
  {
    var e := FirstWhere(s, IsExponentMark);
    if e == |s| then ParseMantissa(s)
    else
      match (ParseMantissa(s[..e]), ParseExponent(s[e + 1..]))
      case (Some(m), Some(x)) => Some(Scale(m, x))
      case _ => None
  }

  /** A reading as a number: an optional sign, then an unsigned number. Only
      text made of digits, signs, a point and exponent marks is accepted; in
      particular "nan", "NA", "" and "null" are rejected. */
  function ParseNumber(s: string): (r: Option<real>)
    ensures r.Some? ==> |s| > 0 && forall i :: 0 <= i < |s| ==> IsNumberChar(s[i])
  {
    if |s| > 0 && (s[0] == '-' || s[0] == '+') then
      match ParseUnsigned(s[1..])
      case None => None
      case Some(v) =>
        UnsignedAlphabet(s[1..]);
        assert forall i :: 1 <= i < |s| ==> s[i] == s[1..][i - 1];
        if s[0] == '-' then Some(-v) else Some(v)
    else
      match ParseUnsigned(s)
      case None => None
      case Some(v) =>
        UnsignedAlphabet(s);
        Some(v)
  }

  /** Decimal rendering of a natural number, as a feed writes integer readings. */
  function ShowNat(n: nat): (s: string)
    ensures |s| > 0 && AllDigits(s)
  {
    if n < 10 then [('0' as int + n) as char]
    else ShowNat(n / 10) + [('0' as int + n % 10) as char]
  }

  lemma {:induction false} ShowNatValue(n: nat)
    ensures DigitsValue(ShowNat(n)) == n
  {
    if n >= 10 {
      var s := ShowNat(n);
      assert s[..|s| - 1] == ShowNat(n / 10);
      ShowNatValue(n / 10);
    }
  }

  /** A digit string carries no point and no exponent mark. */
  lemma DigitsHaveNoMarks(s: string)
    requires AllDigits(s)
    ensures FirstWhere(s, IsDot) == |s| && FirstWhere(s, IsExponentMark) == |s|
  {
  }

  /** The digits of a natural number read as a mantissa give that number. */
  lemma MantissaShowNat(n: nat)
    ensures ParseMantissa(ShowNat(n)) == Some(n as real)
  {
    var s := ShowNat(n);
    DigitsHaveNoMarks(s);
    ShowNatValue(n);
    assert s[..|s|] == s && ParseMantissa(s) == MantissaOf(s, []);
    assert DigitsValue([]) == 0 && Pow10(0) == 1;
  }

  /** A plain integer reading parses to its own value. */
  lemma ParseShowNat(n: nat)
    ensures ParseNumber(ShowNat(n)) == Some(n as real)
  {
    var s := ShowNat(n);
    DigitsHaveNoMarks(s);
    MantissaShowNat(n);
    assert IsDigit(s[0]) && ParseNumber(s) == ParseUnsigned(s);
    assert ParseUnsigned(s) == ParseMantissa(s);
  }

  /** A negative integer reading parses to its own value. */
  lemma ParseShowNegative(n: nat)
    ensures ParseNumber("-" + ShowNat(n)) == Some(-(n as real))
  {
    var s := ShowNat(n);
    assert ("-" + s)[1..] == s;
    ParseShowNat(n);
  }

  /** A reading `whole.frac` parses to `whole + frac / 10^|frac|`
      (`DecimalValue`); either side of the point may be empty, not both. */
  lemma ParseDecimal(whole: string, frac: string)
    requires AllDigits(whole) && AllDigits(frac) && |whole| + |frac| > 0
    ensures ParseNumber(whole + "." + frac) == Some(DecimalValue(whole, frac))
  {
    DecimalShape(whole, frac);
    MantissaValue(whole, frac);
  }

  /** A sign before an unsigned reading: a minus negates its value, a plus
      keeps it, and an unreadable rest stays unreadable. */
  lemma ParseSigned(sign: char, u: string)
    requires sign == '-' || sign == '+'
    ensures ParseUnsigned(u).None? ==> ParseNumber([sign] + u) == None
    ensures ParseUnsigned(u).Some? ==>
              ParseNumber([sign] + u)
              == Some(if sign == '-' then -ParseUnsigned(u).value else ParseUnsigned(u).value)
  {
    assert ([sign] + u)[0] == sign && ([sign] + u)[1..] == u;
  }

  /** A signed reading `-whole.frac` or `+whole.frac` parses to the decimal
      value, negated after a minus. */
  lemma ParseSignedDecimal(sign: char, whole: string, frac: string)
    requires sign == '-' || sign == '+'
    requires AllDigits(whole) && AllDigits(frac) && |whole| + |frac| > 0
    ensures ParseNumber([sign] + (whole + "." + frac))
         == Some(if sign == '-' then -DecimalValue(whole, frac) else DecimalValue(whole, frac))
  {
    DecimalShape(whole, frac);
    ParseSigned(sign, whole + "." + frac);
  }

  lemma MantissaValue(whole: string, frac: string)
    requires AllDigits(whole) && AllDigits(frac) && |whole| + |frac| > 0
    ensures MantissaOf(whole, frac) == Some(DecimalValue(whole, frac))
  {
  }

  /** How `whole.frac` splits: no sign, no exponent, the point after `whole`. */
  lemma DecimalShape(whole: string, frac: string)
    requires AllDigits(whole) && AllDigits(frac)
    ensures PlainMantissa(whole + "." + frac)
    ensures ParseMantissa(whole + "." + frac) == MantissaOf(whole, frac)
    ensures ParseNumber(whole + "." + frac) == ParseUnsigned(whole + "." + frac) == MantissaOf(whole, frac)
  {
    var s := whole + "." + frac;
    var d := |whole|;
    assert FirstWhere(s, IsDot) == d by {
      assert forall j :: 0 <= j < d ==> s[j] == whole[j];
      FirstWhereAt(s, IsDot, d);
    }
    assert s[..d] == whole;
    assert s[d + 1..] == frac;
    assert FirstWhere(s, IsExponentMark) == |s| by {
      forall j | 0 <= j < |s|
        ensures !IsExponentMark(s[j])
      {
        if j < d {
          assert s[j] == whole[j];
        } else if j > d {
          assert s[j] == frac[j - d - 1];
        }
      }
      FirstWhereNone(s, IsExponentMark);
    }
    assert ParseUnsigned(s) == ParseMantissa(s);
    assert ParseMantissa(s) == MantissaOf(whole, frac);
    assert s[0] != '-' && s[0] != '+' by {
      if d > 0 {
        assert s[0] == whole[0];
      }
    }
  }

  /** Digits after a minus sign read as a negative exponent. */
  lemma NegativeExponent(b: string, x: nat)
    requires |b| > 0 && AllDigits(b) && DigitsValue(b) == x
    ensures ParseExponent("-" + b) == Some(-(x as int))
  {
    var s := "-" + b;
    assert s[0] == '-' && s[1..] == b;
  }

  /** A mantissa, an exponent mark and an exponent read as the scaled mantissa. */
  lemma ExponentSplit(a: string, mark: char, b: string, m: real, x: int)
    requires PlainMantissa(a) && IsExponentMark(mark)
    requires ParseMantissa(a) == Some(m) && ParseExponent(b) == Some(x)
    ensures ParseNumber(a + [mark] + b) == Some(Scale(m, x))
  {
    var s := a + [mark] + b;
    assert s[0] == a[0];
    assert ParseNumber(s) == ParseUnsigned(s);
    assert forall j :: 0 <= j < |a| ==> s[j] == a[j];
    FirstWhereAt(s, IsExponentMark, |a|);
    assert s[..|a|] == a && s[|a| + 1..] == b;
  }

  lemma DigitsArePlain(a: string)
    requires |a| > 0 && AllDigits(a)
    ensures PlainMantissa(a)
  {
    assert IsDigit(a[0]);
  }

  /** Readings `whole.frac e digits` and `whole.frac e-digits` parse to the
      decimal value `v` of `whole.frac` times, or divided by, ten to the
      power `x` of the exponent digits. */
  lemma ParseDecimalExponent(whole: string, frac: string, mark: char, b: string, v: real, x: nat)
    requires AllDigits(whole) && AllDigits(frac) && |whole| + |frac| > 0
    requires IsExponentMark(mark) && |b| > 0 && AllDigits(b)
    requires v == DecimalValue(whole, frac) && x == DigitsValue(b)
    ensures ParseNumber(whole + "." + frac + [mark] + b) == Some(v * Pow10(x) as real)
    ensures ParseNumber(whole + "." + frac + [mark] + ("-" + b)) == Some(v / Pow10(x) as real)
  {
    var a := whole + "." + frac;
    assert PlainMantissa(a) && ParseMantissa(a) == Some(v) by {
      DecimalShape(whole, frac);
      MantissaValue(whole, frac);
    }
    PositiveExponentSplit(a, mark, b, v, x);
    NegativeExponentSplit(a, mark, b, v, x);
  }

  /** The exponent forms for a mantissa made of digits only. */
  lemma DigitsExponentSplit(a: string, mark: char, b: string, m: real, x: nat)
    requires |a| > 0 && AllDigits(a) && IsExponentMark(mark)
    requires |b| > 0 && AllDigits(b) && DigitsValue(b) == x
    requires ParseMantissa(a) == Some(m)
    ensures ParseNumber(a + [mark] + b) == Some(m * Pow10(x) as real)
    ensures ParseNumber(a + [mark] + ("-" + b)) == Some(m / Pow10(x) as real)
  {
    DigitsArePlain(a);
    PositiveExponentSplit(a, mark, b, m, x);
    NegativeExponentSplit(a, mark, b, m, x);
  }

  /** A non-negative exponent multiplies, a negative one divides. */
  lemma ScaleBy(m: real, x: nat)
    ensures Scale(m, x) == m * Pow10(x) as real
    ensures Scale(m, -(x as int)) == m / Pow10(x) as real
  {
  }

  /** A reading `m e x` parses to `m * 10^x`. */
  lemma ParseShowExponent(m: nat, mark: char, x: nat)
    requires IsExponentMark(mark)
    ensures ParseNumber(ShowNat(m) + [mark] + ShowNat(x)) == Some(m as real * Pow10(x) as real)
  {
    MantissaShowNat(m);
    ShowNatValue(x);
    DigitsExponentSplit(ShowNat(m), mark, ShowNat(x), m as real, x);
  }

  /** A mantissa, an exponent mark and digits read as the mantissa times a
      power of ten. */
  lemma PositiveExponentSplit(a: string, mark: char, b: string, m: real, x: nat)
    requires PlainMantissa(a) && IsExponentMark(mark)
    requires |b| > 0 && AllDigits(b) && DigitsValue(b) == x
    requires ParseMantissa(a) == Some(m)
    ensures ParseNumber(a + [mark] + b) == Some(m * Pow10(x) as real)
  {
    assert IsDigit(b[0]) && ParseExponent(b) == Some(x);
    ExponentSplit(a, mark, b, m, x);
    ScaleBy(m, x);
  }

  /** A reading `m e-x` parses to `m / 10^x`. */
  lemma ParseShowNegativeExponent(m: nat, mark: char, x: nat)
    requires IsExponentMark(mark)
    ensures ParseNumber(ShowNat(m) + [mark] + ("-" + ShowNat(x))) == Some(m as real / Pow10(x) as real)
  {
    MantissaShowNat(m);
    ShowNatValue(x);
    DigitsExponentSplit(ShowNat(m), mark, ShowNat(x), m as real, x);
  }

  /** A mantissa, an exponent mark, a minus sign and digits read as the
      mantissa divided by a power of ten. */
  lemma NegativeExponentSplit(a: string, mark: char, b: string, m: real, x: nat)
    requires PlainMantissa(a) && IsExponentMark(mark)
    requires |b| > 0 && AllDigits(b) && DigitsValue(b) == x
    requires ParseMantissa(a) == Some(m)
    ensures ParseNumber(a + [mark] + ("-" + b)) == Some(m / Pow10(x) as real)
  {
    NegativeExponent(b, x);
    ExponentSplit(a, mark, "-" + b, m, -(x as int));
    ScaleBy(m, x);
  }

  lemma {:induction false} FirstWhereAt(s: string, stop: char -> bool, k: nat)
    requires k < |s| && stop(s[k])
    requires forall j :: 0 <= j < k ==> !stop(s[j])
    ensures FirstWhere(s, stop) == k
  {
    if k > 0 {
      FirstWhereAt(s[1..], stop, k - 1);
    }
  }

  lemma {:induction false} FirstWhereNone(s: string, stop: char -> bool)
    requires forall j :: 0 <= j < |s| ==> !stop(s[j])
    ensures FirstWhere(s, stop) == |s|
  {
    if s != [] {
      FirstWhereNone(s[1..], stop);
    }
  }

  /** An accepted unsigned reading is non-empty text over the number alphabet. */
  lemma UnsignedAlphabet(u: string)
    requires ParseUnsigned(u).Some?
    ensures |u| > 0
    ensures forall i :: 0 <= i < |u| ==> IsNumberChar(u[i])
  {
    var e := FirstWhere(u, IsExponentMark);
    if e == |u| {
      MantissaAlphabet(u);
    } else {
      MantissaAlphabet(u[..e]);
      assert ParseExponent(u[e + 1..]).Some?;
      var x := u[e + 1..];
      assert forall i :: 0 <= i < |x| ==> IsNumberChar(x[i]) by {
        if x[0] == '+' || x[0] == '-' {
          assert forall i :: 1 <= i < |x| ==> x[i] == x[1..][i - 1];
        }
      }
      forall i | 0 <= i < |u|
        ensures IsNumberChar(u[i])
      {
        if i < e {
          assert u[i] == u[..e][i];
        } else if i > e {
          assert u[i] == x[i - e - 1];
        }
      }
    }
  }

  /** An accepted mantissa is non-empty text over the number alphabet. */
  lemma MantissaAlphabet(m: string)
    requires ParseMantissa(m).Some?
    ensures |m| > 0
    ensures forall i :: 0 <= i < |m| ==> IsNumberChar(m[i])
  {
    var d := FirstWhere(m, IsDot);
    var frac := if d < |m| then m[d + 1..] else [];
    forall i | 0 <= i < |m|
      ensures IsNumberChar(m[i])
    {
      if i < d {
        assert m[i] == m[..d][i];
      } else if i > d {
        assert m[i] == frac[i - d - 1];
      }
    }
  }
}

=== FILE: resampler.dfy ===
/** The hourly resampler of the delta endpoint (`resample('1h').mean()`): one
    slot per hour from the hour of the earliest observation to the hour of the
    latest, each holding the mean of the observations of its hour, or nothing
    when the hour has none. */
module Resampler {
  import opened Wrappers
  import opened Feed
  import opened Alignment

  /** The bucket width, one hour in seconds. */
  const Hour: int := 3600

  /** The start of the hour containing `t`: `t` rounded down to a multiple of an hour. */
  function HourOf(t: int): (h: int)
    ensures h % Hour == 0 && h <= t < h + Hour
  {
    (t / Hour) * Hour
  }

  /** The hour containing `t` is the only hour-aligned `h` with `h <= t < h + Hour`. */
  lemma HourOfUnique(t: int, h: int)
    requires h % Hour == 0 && h <= t < h + Hour
    ensures HourOf(t) == h
  {
    var q := h / Hour;
    assert h == q * Hour;
    assert q * Hour <= t < (q + 1) * Hour;
    assert t / Hour == q;
  }

  lemma HourOfMonotone(t: int, u: int)
    requires t <= u
    ensures HourOf(t) <= HourOf(u)
  {
    assert t / Hour <= u / Hour;
  }

  /** `o` falls in the bucket `[h, h + Hour)`. */
  predicate InBucket(o: Observation, h: int) { h <= o.instant < h + Hour }

  /** The number of observations of `s` in the bucket starting at `h`. */
  function CountIn(s: seq<Observation>, h: int): nat
  {
    if s == [] then 0
    else (if InBucket(s[0], h) then 1 else 0) + CountIn(s[1..], h)
  }

  /** The sum of the values of the observations of `s` in the bucket starting at `h`. */
  function SumIn(s: seq<Observation>, h: int): real
  {
    if s == [] then 0.0
    else (if InBucket(s[0], h) then s[0].value else 0.0) + SumIn(s[1..], h)
  }

  /** A bucket holds observations exactly when its count is positive. */
  lemma {:induction false} CountInPositive(s: seq<Observation>, h: int)
    ensures CountIn(s, h) > 0 <==> exists i :: 0 <= i < |s| && InBucket(s[i], h)
  {
    if s != [] {
      CountInPositive(s[1..], h);
      if CountIn(s[1..], h) > 0 {
        var i :| 0 <= i < |s[1..]| && InBucket(s[1..][i], h);
        assert InBucket(s[i + 1], h);
      }
      if exists i :: 0 <= i < |s| && InBucket(s[i], h) {
        var i :| 0 <= i < |s| && InBucket(s[i], h);
        if i > 0 {
          assert InBucket(s[1..][i - 1], h);
        }
      }
    }
  }

  /** The mean of the bucket starting at `h`, or `None` when it is empty. */
  function MeanIn(s: seq<Observation>, h: int): (m: Option<real>)
    ensures m.Some? <==> exists i :: 0 <= i < |s| && InBucket(s[i], h)
    ensures m.Some? ==> m.value * CountIn(s, h) as real == SumIn(s, h)
  {
    CountInPositive(s, h);
    if CountIn(s, h) == 0 then None else Some(SumIn(s, h) / CountIn(s, h) as real)
  }

  lemma {:induction false} SumInBounds(s: seq<Observation>, h: int, lo: real, hi: real)
    requires forall i :: 0 <= i < |s| && InBucket(s[i], h) ==> lo <= s[i].value <= hi
    ensures lo * CountIn(s, h) as real <= SumIn(s, h) <= hi * CountIn(s, h) as real
  {
    if s != [] {
      var t := s[1..];
      assert forall i :: 0 <= i < |t| && InBucket(t[i], h) ==> lo <= t[i].value <= hi by {
        forall i | 0 <= i < |t| && InBucket(t[i], h)
          ensures lo <= t[i].value <= hi
        {
          assert t[i] == s[i + 1];
        }
      }
      SumInBounds(t, h, lo, hi);
      var c := CountIn(t, h) as real;
      if InBucket(s[0], h) {
        var n := CountIn(s, h) as real;
        assert n == c + 1.0 && SumIn(s, h) == s[0].value + SumIn(t, h);
        BoundStep(lo, hi, s[0].value, c, SumIn(t, h));
        assert lo * n == lo * (c + 1.0) && hi * n == hi * (c + 1.0);
      } else {
        var n := CountIn(s, h) as real;
        assert n == c && SumIn(s, h) == SumIn(t, h);
        assert lo * n == lo * c && hi * n == hi * c;
      }
    } else {
      assert CountIn(s, h) == 0 && SumIn(s, h) == 0.0;
      assert lo * 0.0 == 0.0 && hi * 0.0 == 0.0;
    }
  }

  lemma BoundStep(lo: real, hi: real, x: real, c: real, sum: real)
    requires lo * c <= sum <= hi * c && lo <= x <= hi
    ensures lo * (c + 1.0) <= x + sum <= hi * (c + 1.0)
  {
    assert lo * (c + 1.0) == lo * c + lo;
    assert hi * (c + 1.0) == hi * c + hi;
  }

  /** The mean of a bucket lies between the smallest and the largest value
      observed in it. */
  lemma MeanInBounds(s: seq<Observation>, h: int, lo: real, hi: real)
    requires MeanIn(s, h).Some?
    requires forall i :: 0 <= i < |s| && InBucket(s[i], h) ==> lo <= s[i].value <= hi
    ensures lo <= MeanIn(s, h).value <= hi
  {
    SumInBounds(s, h, lo, hi);
    var c := CountIn(s, h) as real;
    var m := MeanIn(s, h).value;
    assert c > 0.0;
    assert m * c == SumIn(s, h);
    QuotientBounds(lo, hi, SumIn(s, h), c, m);
  }

  lemma QuotientBounds(lo: real, hi: real, sum: real, c: real, m: real)
    requires c > 0.0 && m * c == sum && lo * c <= sum <= hi * c
    ensures lo <= m <= hi
  {
    assert (m - lo) * c == m * c - lo * c;
    assert (hi - m) * c == hi * c - m * c;
  }

  /** One slot of the hourly grid: the start of its hour and its mean, if any. */
  datatype Slot = Slot(at: int, mean: Option<real>)

  /** The `n` consecutive hourly slots of `s` from hour `first` on. */
  function Slots(s: seq<Observation>, first: int, n: nat): (g: seq<Slot>)
    ensures |g| == n
    ensures forall k :: 0 <= k < n ==> g[k] == Slot(first + k * Hour, MeanIn(s, first + k * Hour))
  {
    seq(n, k requires 0 <= k < n => Slot(first + k * Hour, MeanIn(s, first + k * Hour)))
  }

  /** Whole hours stay whole hours when whole hours are added. */
  lemma AlignedStep(first: int, k: int)
    requires first % Hour == 0
    ensures (first + k * Hour) % Hour == 0
  {
    assert first == (first / Hour) * Hour;
    assert first + k * Hour == (first / Hour + k) * Hour;
  }

  /** Between two whole hours lie a whole number of hours. */
  lemma AlignedDiff(first: int, h: int)
    requires first % Hour == 0 && h % Hour == 0 && first <= h
    ensures first + ((h - first) / Hour) * Hour == h
  {
    assert first == (first / Hour) * Hour && h == (h / Hour) * Hour;
    assert h - first == (h / Hour - first / Hour) * Hour;
  }

  /** The hourly grid of `s`, from the hour of its earliest observation to the
      hour of its latest, with no hour missing. An empty series gives an empty grid. */
  function Resample(s: seq<Observation>): (g: seq<Slot>)
    ensures s == [] ==> g == []
    ensures s != [] ==> |g| > 0 && g[0].at == HourOf(Earliest(s)) && g[|g| - 1].at == HourOf(Latest(s))
    ensures forall k :: 0 <= k < |g| ==> g[k].at % Hour == 0
    ensures forall k :: 0 <= k < |g| ==> g[k].at == g[0].at + k * Hour
    ensures forall k :: 0 <= k < |g| ==> g[k].mean == MeanIn(s, g[k].at)
  {
    if s == [] then []
    else
      SlotsGrid(s, HourOf(Earliest(s)), HourCount(s));
      Slots(s, HourOf(Earliest(s)), HourCount(s))
  }

  /** The number of hours from the hour of the earliest observation of `s` to
      the hour of its latest, both included. */
  function HourCount(s: seq<Observation>): (n: nat)
    requires s != []
    ensures HourOf(Earliest(s)) + (n - 1) * Hour == HourOf(Latest(s))
  {
    HourOfMonotone(Earliest(s), Latest(s));
    AlignedDiff(HourOf(Earliest(s)), HourOf(Latest(s)));
    (HourOf(Latest(s)) - HourOf(Earliest(s))) / Hour + 1
  }

  /** The slots from a whole hour on are whole hours, one hour apart, each
      holding its bucket's mean. */
  lemma SlotsGrid(s: seq<Observation>, first: int, n: nat)
    requires first % Hour == 0
    ensures forall k :: 0 <= k < n ==> Slots(s, first, n)[k].at % Hour == 0
    ensures forall k :: 0 <= k < n ==> Slots(s, first, n)[k].at == first + k * Hour
    ensures forall k :: 0 <= k < n ==> Slots(s, first, n)[k].mean == MeanIn(s, Slots(s, first, n)[k].at)
  {
    var g := Slots(s, first, n);
    forall k | 0 <= k < n
      ensures g[k].at % Hour == 0 && g[k].at == first + k * Hour && g[k].mean == MeanIn(s, g[k].at)
    {
      assert g[k] == Slot(first + k * Hour, MeanIn(s, first + k * Hour));
      AlignedStep(first, k);
    }
  }

  /** The first and the last slot of a non-empty series' grid always hold a
      mean: they contain the earliest and the latest observation. So gap
      filling only ever meets unset slots between two set ones. */
  lemma ResampleEndsObserved(s: seq<Observation>)
    requires |s| > 0
    ensures Resample(s)[0].mean.Some? && Resample(s)[|Resample(s)| - 1].mean.Some?
  {
    var g := Resample(s);
    var i :| 0 <= i < |s| && s[i].instant == Earliest(s);
    assert InBucket(s[i], g[0].at);
    var j :| 0 <= j < |s| && s[j].instant == Latest(s);
    assert InBucket(s[j], g[|g| - 1].at);
  }

  /** Every observation falls in exactly one slot of the grid: the one of its hour. */
  lemma ResampleCovers(s: seq<Observation>, i: nat) returns (k: nat)
    requires i < |s|
    ensures k < |Resample(s)| && InBucket(s[i], Resample(s)[k].at)
    ensures forall l :: 0 <= l < |Resample(s)| && InBucket(s[i], Resample(s)[l].at) ==> l == k
  {
    var g := Resample(s);
    var first := HourOf(Earliest(s));
    var h := HourOf(s[i].instant);
    HourOfMonotone(Earliest(s), s[i].instant);
    HourOfMonotone(s[i].instant, Latest(s));
    k := (h - first) / Hour;
    AlignedDiff(first, h);
    assert first + k * Hour == h;
    assert g[k].at == h;
    forall l | 0 <= l < |g| && InBucket(s[i], g[l].at)
      ensures l == k
    {
      HourOfUnique(s[i].instant, g[l].at);
      assert g[l].at == first + l * Hour;
    }
  }

  /** Counting is additive over concatenation. */
  lemma {:induction false} BucketAppend(s: seq<Observation>, t: seq<Observation>, h: int)
    ensures CountIn(s + t, h) == CountIn(s, h) + CountIn(t, h)
    ensures SumIn(s + t, h) == SumIn(s, h) + SumIn(t, h)
  {
    if s == [] {
      assert s + t == t;
    } else {
      assert (s + t)[1..] == s[1..] + t;
      BucketAppend(s[1..], t, h);
    }
  }

  /** The count and the sum of a bucket do not depend on the order of the series. */
  lemma {:induction false} BucketPermutation(s: seq<Observation>, t: seq<Observation>, h: int)
    requires multiset(s) == multiset(t)
    ensures CountIn(s, h) == CountIn(t, h) && SumIn(s, h) == SumIn(t, h)
  {
    if s == [] {
      assert |t| == |multiset(t)| == 0;
    } else {
      var x := s[0];
      assert x in multiset(t);
      var p :| 0 <= p < |t| && t[p] == x;
      var rest := t[..p] + t[p + 1..];
      assert t == t[..p] + [x] + t[p + 1..];
      RemoveMatching(s, t, p);
      BucketPermutation(s[1..], rest, h);
      BucketAppend(t[..p] + [x], t[p + 1..], h);
      BucketAppend(t[..p], [x], h);
      BucketAppend(t[..p], t[p + 1..], h);
      assert [x][1..] == [];
    }
  }

  lemma RemoveMatching(s: seq<Observation>, t: seq<Observation>, p: nat)
    requires |s| > 0 && multiset(s) == multiset(t) && p < |t| && t[p] == s[0]
    ensures multiset(s[1..]) == multiset(t[..p] + t[p + 1..])
  {
    var x := s[0];
    assert t == t[..p] + [x] + t[p + 1..];
    assert s == [x] + s[1..];
    calc {
      multiset(s[1..]);
      multiset(s) - multiset{x};
      multiset(t) - multiset{x};
      multiset(t[..p] + t[p + 1..]);
    }
  }

  lemma ExtremesPermutation(s: seq<Observation>, t: seq<Observation>)
    requires |s| > 0 && multiset(s) == multiset(t)
    ensures |t| > 0 && Earliest(s) == Earliest(t) && Latest(s) == Latest(t)
  {
    assert s[0] in multiset(t);
    forall x | x in s ensures x in t {
      assert x in multiset(s);
    }
    forall x | x in t ensures x in s {
      assert x in multiset(t);
    }
    var i :| 0 <= i < |s| && s[i].instant == Earliest(s);
    var j :| 0 <= j < |t| && t[j].instant == Earliest(t);
    assert s[i] in t && t[j] in s;
    var i' :| 0 <= i' < |s| && s[i'].instant == Latest(s);
    var j' :| 0 <= j' < |t| && t[j'].instant == Latest(t);
    assert s[i'] in t && t[j'] in s;
  }

  /** Resampling is order-independent: any reordering of the observations,
      duplicates included, yields the same grid. */
  lemma ResampleOrderIndependent(s: seq<Observation>, t: seq<Observation>)
    requires multiset(s) == multiset(t)
    ensures Resample(s) == Resample(t)
  {
    if s == [] {
      assert |t| == |multiset(t)| == 0;
    } else {
      ExtremesPermutation(s, t);
      assert HourCount(s) == HourCount(t);
      SlotsPermutation(s, t, HourOf(Earliest(s)), HourCount(s));
    }
  }

  lemma SlotsPermutation(s: seq<Observation>, t: seq<Observation>, first: int, n: nat)
    requires multiset(s) == multiset(t)
    ensures Slots(s, first, n) == Slots(t, first, n)
  {
    var g, g' := Slots(s, first, n), Slots(t, first, n);
    forall k | 0 <= k < n
      ensures g[k] == g'[k]
    {
      MeanPermutation(s, t, first + k * Hour);
    }
  }

  lemma MeanPermutation(s: seq<Observation>, t: seq<Observation>, h: int)
    requires multiset(s) == multiset(t)
    ensures MeanIn(s, h) == MeanIn(t, h)
  {
    BucketPermutation(s, t, h);
  }
}

=== FILE: scenario.dfy ===
/** A worked example of the delta endpoint: indoor readings every two hours,
    outdoor readings at irregular hours, one unreadable indoor row. */
module DeltaScenario {
  import opened Wrappers
  import opened Filters
  import opened Numbers
  import opened Feed
  import opened Alignment
  import opened Resampler
  import opened GapFiller
  import opened Merge
  import opened DeltaEndpoint

  const IndoorFeed: seq<RawRow> :=
    [RawRow(0, Some("400")), RawRow(3600, Some("n/a")), RawRow(7200, Some("410")), RawRow(14400, Some("420"))]

  const OutdoorFeed: seq<RawRow> :=
    [RawRow(0, Some("380")), RawRow(3600, Some("385")), RawRow(10800, Some("395")), RawRow(12000, None)]

  lemma ThreeDigits(n: nat)
    requires 100 <= n < 1000
    ensures ShowNat(n) == [('0' as int + n / 100) as char, ('0' as int + n / 10 % 10) as char, ('0' as int + n % 10) as char]
  {
    assert n / 10 / 10 == n / 100 && n / 100 < 10 && n / 10 >= 10;
    assert ShowNat(n / 10) == [('0' as int + n / 100) as char, ('0' as int + n / 10 % 10) as char];
  }

  lemma ReadsAs(text: string, n: nat)
    requires 100 <= n < 1000
    requires text == [('0' as int + n / 100) as char, ('0' as int + n / 10 % 10) as char, ('0' as int + n % 10) as char]
    ensures ParseNumber(text) == Some(n as real)
  {
    ThreeDigits(n);
    ParseShowNat(n);
  }

  lemma NotAvailableRejected()
    ensures ParseNumber("n/a") == None
  {
    assert !IsNumberChar("n/a"[0]);
  }

  const Indoor: seq<Observation> := [Observation(0, 400.0), Observation(7200, 410.0), Observation(14400, 420.0)]
  const Outdoor: seq<Observation> := [Observation(0, 380.0), Observation(3600, 385.0), Observation(10800, 395.0)]

  lemma ScenarioWindow()
    ensures CommonWindow(Indoor, Outdoor) == Window(0, 10800)
  {
    assert Earliest(Indoor) == 0 && Earliest(Outdoor) == 0;
    assert Latest(Indoor) == 14400 && Latest(Outdoor) == 10800;
  }

  lemma ScenarioTrim()
    ensures Trim(Indoor, Window(0, 10800)) == Indoor[..2]
    ensures Trim(Outdoor, Window(0, 10800)) == Outdoor
  {
    var w := Window(0, 10800);
    assert Indoor[..2][..1] == Indoor[..1] && Indoor[..1][..0] == [];
    assert Outdoor[..2][..1] == Outdoor[..1] && Outdoor[..1][..0] == [];
    assert Outdoor[..3] == Outdoor && Indoor[..3] == Indoor;
    assert Trim(Indoor[..1], w) == Indoor[..1];
    assert Trim(Indoor[..2], w) == Indoor[..2];
    assert Trim(Outdoor[..1], w) == Outdoor[..1];
    assert Trim(Outdoor[..2], w) == Outdoor[..2];
  }

  /** The indoor readings left inside the window. */
  const IndoorTrimmed: seq<Observation> := [Observation(0, 400.0), Observation(7200, 410.0)]

  lemma IndoorMeans()
    ensures MeanIn(IndoorTrimmed, 0) == Some(400.0)
    ensures MeanIn(IndoorTrimmed, 3600) == None
    ensures MeanIn(IndoorTrimmed, 7200) == Some(410.0)
  {
    var s := IndoorTrimmed;
    assert s[1..] == [Observation(7200, 410.0)] && s[1..][1..] == [];
    assert CountIn(s[1..], 0) == 0 && SumIn(s[1..], 0) == 0.0;
    assert CountIn(s[1..], 7200) == 1 && SumIn(s[1..], 7200) == 410.0;
  }

  lemma IndoorSlots()
    ensures Resample(IndoorTrimmed) == [Slot(0, Some(400.0)), Slot(3600, None), Slot(7200, Some(410.0))]
  {
    var s := IndoorTrimmed;
    assert Earliest(s) == 0 && Latest(s) == 7200;
    IndoorMeans();
  }

  /** Indoor hour 1 has no reading and is filled halfway between 400 and 410. */
  lemma ScenarioIndoorGrid()
    ensures HourlyGrid(Indoor[..2]) == IndoorGrid
  {
    assert Indoor[..2] == IndoorTrimmed;
    IndoorSlots();
    var slots := Resample(IndoorTrimmed);
    FillInterpolates(slots, 0, 1, 2);
    assert Lerp(400.0, 410.0, 1, 2) == 405.0;
  }

  lemma OutdoorMeans()
    ensures MeanIn(Outdoor, 0) == Some(380.0) && MeanIn(Outdoor, 3600) == Some(385.0)
    ensures MeanIn(Outdoor, 7200) == None && MeanIn(Outdoor, 10800) == Some(395.0)
  {
    var s := Outdoor;
    assert s[1..] == [Observation(3600, 385.0), Observation(10800, 395.0)];
    assert s[1..][1..] == [Observation(10800, 395.0)] && s[1..][1..][1..] == [];
  }

  lemma OutdoorExtremes()
    ensures Earliest(Outdoor) == 0 && Latest(Outdoor) == 10800
  {
  }

  lemma OutdoorSlots()
    ensures Resample(Outdoor)
         == [Slot(0, Some(380.0)), Slot(3600, Some(385.0)), Slot(7200, None), Slot(10800, Some(395.0))]
  {
    OutdoorExtremes();
    OutdoorMeans();
    var g := Resample(Outdoor);
    assert g[0].at == 0 && g[|g| - 1].at == 10800 == g[0].at + (|g| - 1) * Hour;
    assert |g| == 4;
    assert g[1].at == 3600 && g[2].at == 7200 && g[3].at == 10800;
  }

  /** Four slots of which only the third is unset. */
  lemma FillFour(g: seq<Slot>)
    requires |g| == 4 && EndsObserved(g) && g[1].mean.Some? && g[2].mean.None?
    ensures Fill(g)
         == [Point(g[0].at, g[0].mean.value), Point(g[1].at, g[1].mean.value),
             Point(g[2].at, Lerp(g[1].mean.value, g[3].mean.value, 1, 2)), Point(g[3].at, g[3].mean.value)]
  {
    FillInterpolates(g, 1, 2, 3);
  }

  /** Outdoor hour 2 has no reading and is filled halfway between 385 and 395. */
  lemma ScenarioOutdoorGrid()
    ensures HourlyGrid(Outdoor) == OutdoorGrid
  {
    OutdoorSlots();
    var g := Resample(Outdoor);
    assert HourlyGrid(Outdoor) == Fill(g);
    FillFour(g);
    assert Lerp(385.0, 395.0, 1, 2) == 390.0;
  }

  const IndoorGrid: seq<Point> := [Point(0, 400.0), Point(3600, 405.0), Point(7200, 410.0)]
  const OutdoorGrid: seq<Point> :=
    [Point(0, 380.0), Point(3600, 385.0), Point(7200, 390.0), Point(10800, 395.0)]

  lemma JoinCons(p: Point, rest: seq<Point>, b: seq<Point>)
    ensures Join([p] + rest, b) == Matches(p, b) + Join(rest, b)
  {
    assert ([p] + rest)[1..] == rest;
  }

  lemma JoinOfThree(a: seq<Point>, b: seq<Point>)
    requires |a| == 3
    ensures Join(a, b) == Matches(a[0], b) + Matches(a[1], b) + Matches(a[2], b)
  {
    assert a == [a[0]] + ([a[1]] + ([a[2]] + []));
    assert Join([], b) == [];
    JoinCons(a[2], [], b);
    JoinCons(a[1], [a[2]], b);
    JoinCons(a[0], [a[1]] + [a[2]], b);
  }

  /** Against an ascending grid, a point meets only the grid point of its hour. */
  lemma MatchesOwnHour(p: Point, b: seq<Point>, j: nat)
    requires StrictlyAscending(b) && j < |b| && b[j].at == p.at
    ensures Matches(p, b) == [Row(p.at, p.value, b[j].value, p.value - b[j].value)]
  {
    MatchesExactlyOne(p, b, j);
  }

  lemma ThreeSingletons<T>(x: T, y: T, z: T)
    ensures [x] + [y] + [z] == [x, y, z]
  {
  }

  /** Three points that meet the first three hours of an ascending grid of
      four join into three rows. */
  lemma JoinThree(a: seq<Point>, b: seq<Point>)
    requires |a| == 3 && |b| == 4 && StrictlyAscending(b)
    requires a[0].at == b[0].at && a[1].at == b[1].at && a[2].at == b[2].at
    ensures Join(a, b)
         == [Row(a[0].at, a[0].value, b[0].value, a[0].value - b[0].value),
             Row(a[1].at, a[1].value, b[1].value, a[1].value - b[1].value),
             Row(a[2].at, a[2].value, b[2].value, a[2].value - b[2].value)]
  {
    JoinOfThree(a, b);
    MatchesOwnHour(a[0], b, 0);
    MatchesOwnHour(a[1], b, 1);
    MatchesOwnHour(a[2], b, 2);
    ThreeSingletons(Row(a[0].at, a[0].value, b[0].value, a[0].value - b[0].value),
                    Row(a[1].at, a[1].value, b[1].value, a[1].value - b[1].value),
                    Row(a[2].at, a[2].value, b[2].value, a[2].value - b[2].value));
  }

  /** The two grids share hours 0 to 2; hour 3 exists only outdoors. */
  lemma ScenarioJoin()
    ensures Join(IndoorGrid, OutdoorGrid)
         == [Row(0, 400.0, 380.0, 20.0), Row(3600, 405.0, 385.0, 20.0), Row(7200, 410.0, 390.0, 20.0)]
  {
    JoinThree(IndoorGrid, OutdoorGrid);
  }

  lemma ScenarioRows()
    ensures Report([Row(0, 400.0, 380.0, 20.0), Row(3600, 405.0, 385.0, 20.0), Row(7200, 410.0, 390.0, 20.0)])
         == DeltaReport([0, 3600, 7200], [400.0, 405.0, 410.0], [380.0, 385.0, 390.0], [20.0, 20.0, 20.0])
  {
  }

  /** The reading of hour 4 indoors lies past the outdoor feed's last reading
      and is trimmed away, so the report stops at hour 2 and every delta is 20. */
  lemma ScenarioReport()
    ensures Delta(Indoor, Outdoor)
         == DeltaReport([0, 3600, 7200], [400.0, 405.0, 410.0], [380.0, 385.0, 390.0], [20.0, 20.0, 20.0])
  {
    ScenarioWindow();
    ScenarioTrim();
    ScenarioIndoorGrid();
    ScenarioOutdoorGrid();
    ScenarioJoin();
    ScenarioRows();
  }

  /** A row whose field is the three-digit text of `n` reads as `n`. */
  lemma RowReads(row: RawRow, n: nat)
    requires 100 <= n < 1000
    requires row.field == Some([('0' as int + n / 100) as char, ('0' as int + n / 10 % 10) as char, ('0' as int + n % 10) as char])
    ensures ReadingOf(row) == Some(n as real)
  {
    ReadsAs(row.field.value, n);
  }

  lemma IndoorRowsRead()
    ensures ReadingOf(IndoorFeed[0]) == Some(400.0) && ReadingOf(IndoorFeed[1]) == None
    ensures ReadingOf(IndoorFeed[2]) == Some(410.0) && ReadingOf(IndoorFeed[3]) == Some(420.0)
  {
    RowReads(IndoorFeed[0], 400);
    RowReads(IndoorFeed[2], 410);
    RowReads(IndoorFeed[3], 420);
    NotAvailableRejected();
  }

  lemma FilterSingle<A>(x: A, keep: A -> bool)
    ensures Filter([x], keep) == if keep(x) then [x] else []
  {
    assert [x][..0] == [];
  }

  lemma FilterPrefixStep<A>(f: seq<A>, k: nat, keep: A -> bool)
    requires k < |f|
    ensures Filter(f[..k + 1], keep) == Filter(f[..k], keep) + Filter([f[k]], keep)
  {
    assert f[..k + 1] == f[..k] + [f[k]];
    FilterAppend(f[..k], [f[k]], keep);
  }

  lemma FilterOfFour<A>(f: seq<A>, keep: A -> bool)
    requires |f| == 4
    ensures Filter(f, keep)
         == Filter([f[0]], keep) + Filter([f[1]], keep) + Filter([f[2]], keep) + Filter([f[3]], keep)
  {
    assert f[..0] == [] && f[..4] == f;
    FilterPrefixStep(f, 0, keep);
    FilterPrefixStep(f, 1, keep);
    FilterPrefixStep(f, 2, keep);
    FilterPrefixStep(f, 3, keep);
  }

  /** The three observations of three readable rows. */
  lemma NormalizedOfKept(f: seq<RawRow>, x: RawRow, y: RawRow, z: RawRow)
    requires Parses(x) && Parses(y) && Parses(z) && Filter(f, Parses) == [x, y, z]
    ensures Normalize(f) == [ToObservation(x), ToObservation(y), ToObservation(z)]
  {
  }

  /** Four rows of which only the second fails to parse. */
  lemma DropSecondOfFour(f: seq<RawRow>)
    requires |f| == 4 && Parses(f[0]) && !Parses(f[1]) && Parses(f[2]) && Parses(f[3])
    ensures Normalize(f) == [ToObservation(f[0]), ToObservation(f[2]), ToObservation(f[3])]
  {
    FilterOfFour(f, Parses);
    FilterSingle(f[0], Parses);
    FilterSingle(f[1], Parses);
    FilterSingle(f[2], Parses);
    FilterSingle(f[3], Parses);
    ThreeSingletons(f[0], f[2], f[3]);
    NormalizedOfKept(f, f[0], f[2], f[3]);
  }

  /** Four rows of which only the last fails to parse. */
  lemma DropLastOfFour(f: seq<RawRow>)
    requires |f| == 4 && Parses(f[0]) && Parses(f[1]) && Parses(f[2]) && !Parses(f[3])
    ensures Normalize(f) == [ToObservation(f[0]), ToObservation(f[1]), ToObservation(f[2])]
  {
    FilterOfFour(f, Parses);
    FilterSingle(f[0], Parses);
    FilterSingle(f[1], Parses);
    FilterSingle(f[2], Parses);
    FilterSingle(f[3], Parses);
    ThreeSingletons(f[0], f[1], f[2]);
    NormalizedOfKept(f, f[0], f[1], f[2]);
  }

  lemma OutdoorRowsRead()
    ensures ReadingOf(OutdoorFeed[0]) == Some(380.0) && ReadingOf(OutdoorFeed[1]) == Some(385.0)
    ensures ReadingOf(OutdoorFeed[2]) == Some(395.0) && ReadingOf(OutdoorFeed[3]) == None
  {
    RowReads(OutdoorFeed[0], 380);
    RowReads(OutdoorFeed[1], 385);
    RowReads(OutdoorFeed[2], 395);
  }

  /** The unreadable indoor row and the null outdoor field are dropped. */
  lemma ScenarioNormalized()
    ensures Normalize(IndoorFeed) == Indoor && Normalize(OutdoorFeed) == Outdoor
  {
    IndoorRowsRead();
    DropSecondOfFour(IndoorFeed);
    OutdoorRowsRead();
    DropLastOfFour(OutdoorFeed);
  }

  /** The endpoint only sees the normalised feeds. */
  lemma DeltaCo2OfNormalized(fa: seq<RawRow>, fb: seq<RawRow>, a: seq<Observation>, b: seq<Observation>)
    requires Normalize(fa) == a && Normalize(fb) == b && |a| > 0 && |b| > 0
    ensures DeltaCo2(fa, fb) == Delta(a, b)
  {
  }

  /** End to end on the raw feeds: the report covers hours 0 to 2 only and
      every delta is 20. */
  lemma ScenarioDeltaCo2(indoorFeed: seq<RawRow>, outdoorFeed: seq<RawRow>)
    requires indoorFeed == IndoorFeed && outdoorFeed == OutdoorFeed
    ensures |Normalize(indoorFeed)| > 0 && |Normalize(outdoorFeed)| > 0
    ensures DeltaCo2(indoorFeed, outdoorFeed)
         == DeltaReport([0, 3600, 7200], [400.0, 405.0, 410.0], [380.0, 385.0, 390.0], [20.0, 20.0, 20.0])
  {
    ScenarioNormalized();
    DeltaCo2OfNormalized(indoorFeed, outdoorFeed, Indoor, Outdoor);
    ScenarioReport();
  }
}

=== FILE: wrappers.dfy ===
/** The optional value used wherever the source produces a missing value
    (a reading pandas coerces to NaN, a resampled hour with no observation). */
module Wrappers {

  datatype Option<+T> = None | Some(value: T)
}
